=== FILE: README.md ===
# CRC-protected binary-operation protocol

A model of the wire protocol shared by the three programs of the
repository. The **client** reads an operator and two `int` operands. It
fills a `BinaryOperation` record, protects it with a CRC-32 and sends it to
the **middle man**. The middle man may corrupt the record by inverting one
to three bytes, then forwards it to the **server**. The server recomputes
the checksum. It rejects corrupted records, classifies the operation,
computes the result and sends the record back through the middle man to
the client. Both transports, TCP and UDP, carry the same 24-byte record
image.

Modules, one per concept:

- `CInt`: the C `int` of the record fields. It covers 32-bit two's
  complement, wrap-around, and division truncating toward zero.
- `Bytes`: octets and their values as numbers.
- `Wire`: the record image as the x86-64 ABI lays it out. The 20-byte
  payload holds `operation`, `operand1`, `operand2` and `result`
  (little-endian, 4 bytes each), the `error` byte and three padding bytes.
  A 4-byte `crc` follows. The module holds the field accessors, the field
  setters and the 24-byte codec.
- `Operations`: the `Operation` enum, `parse_operation` and the symbol
  table of `print_operation`.
- `Crc32`: `compute_crc`, the reflected CRC-32 (polynomial 0xEDB88320)
  over the 20 payload bytes. It is written as a pure fold and as the
  bit-loop method. The module proves the standard check value and that
  every single-byte change alters the checksum.
- `Injector`: `introduce_error`, with `rand()` replaced by an explicit
  sequence of draws.
- `Server`: `verify_operation` and the reply step of both server loops.
- `Client`: the request the client loop builds.
- `Relay`: one iteration of the middle man loop, for either transport.
- `Protocol`: whole exchanges, from client through relay and server and
  back.

Points of the C code the model keeps:

- The server zeroes the reply's `crc` (src/server.c:7) and never restores
  it, so every reply carries crc 0.
- The checksum covers the 20-byte payload *including* the three padding
  bytes after `error` (src/shared.c:43). A flip in the padding changes no
  field but still fails the check.
- On a checksum mismatch, the server leaves `result` as received
  (src/server.c:11-14).
- The server's computation is the C semantics on x86-64:
  - `+ - *` wrap modulo 2^32;
  - `/` truncates toward zero;
  - `INT_MIN / -1` traps, so the server process dies without replying.
- A UDP `recvfrom` into the 24-byte record keeps the first 24 bytes of a
  longer datagram and reports 24, so the size checks at src/server.c:120
  and src/middle_man.c:100 accept any datagram of at least 24 bytes.

## Model

| member | source | states |
|---|---|---|
| CInt.SignedRoundTrip | src/shared.h:23-25 | an `int` field read back from its 32-bit pattern is the stored value, and each pattern denotes exactly one `int` |
| CInt.Wrap | src/server.c:17-19 | the value stored for `+ - *` is congruent to the exact result modulo 2^32, and equal to it when it fits in `int` |
| CInt.TruncDivSpec | src/server.c:22 | C division: `(a/b)*b + a%b == a`, the remainder is smaller than `b` in magnitude and is zero or takes the sign of `a` |
| CInt.TruncDivInRange | src/server.c:22 | the quotient fits in `int` exactly when the division is not `INT_MIN / -1` |
| Bytes.ByteRoundTrip | src/shared.c:30 | viewing the record as `uint8_t` bytes loses nothing: byte values and bytes correspond one to one |
| Wire.WordBytesThenAt | src/shared.h:22-25 | storing a 32-bit word as four little-endian bytes and reading it back gives the word |
| Wire.WordAtThenBytes | src/shared.h:22-25 | every four bytes are the little-endian image of the word they denote, so field images and field values correspond one to one |
| Wire.WithWord | src/shared.h:21-28 | writing one 4-byte field makes it read back the written value and leaves every other byte of the payload unchanged |
| Wire.WithOperationCode | src/shared.h:22 | writing `operation` changes that field only; the other fields, the padding and `crc` are unchanged |
| Wire.WithOperand1 | src/shared.h:23 | writing `operand1` changes that field only |
| Wire.WithOperand2 | src/shared.h:24 | writing `operand2` changes that field only |
| Wire.WithResult | src/shared.h:25 | writing `result` changes that field only |
| Wire.WithError | src/shared.h:26 | writing the `error` flag stores 1 or 0 and changes no other byte |
| Wire.Layout | src/shared.h:21-28 | a payload built from field values reads back exactly those values, padding included |
| Wire.CrcBytesRoundTrip | src/shared.h:27 | the `crc` word read back from its four little-endian bytes is the stored value |
| Wire.Encode | src/shared.h:21-28 | the image of a record is 24 bytes: the payload, then `crc` at offset 20 |
| Wire.Decode | src/server.c:120 | a datagram is accepted exactly when it holds at least 24 bytes; the record is its first 20 bytes as payload and the next 4 as `crc`, and any excess is dropped |
| Wire.CodecRoundTrip | src/shared.h:21-28 | decoding an encoded record gives it back, and the record decoded from any accepted datagram encodes to that datagram's first 24 bytes |
| Operations.FromCode | src/server.c:16-24 | a raw `operation` code names an arithmetic operation exactly when it is below 4, matching the enum order; every other value is the `default` case |
| Operations.OrdinalRoundTrip | src/shared.h:17-19 | enum values and their ordinals 0..4 correspond one to one |
| Operations.Parse | src/shared.c:4-10 | "+", "-", "*", "/" parse to ADD, SUB, MUL, DIV respectively, each exactly for that string; every other string is INVALID_OP |
| Operations.Symbol | src/shared.c:14-20 | the codes of ADD, SUB, MUL, DIV show as "+", "-", "*", "/" respectively; every code shows as one character, which is "?" exactly for codes that are not ADD..DIV |
| Operations.ParseSymbolRoundTrip | src/shared.c:4-20 | `parse_operation` inverts the symbol table of `print_operation`; a code prints as "?" exactly when it is not an arithmetic operation; only the four one-character symbols parse to a valid operation |
| Crc32.StepIsConditionalXor | src/shared.c:48 | the branch-free step shifts right and XORs the polynomial exactly when the low bit was set |
| Crc32.ComputeCrc | src/shared.c:40-52 | the nested bit loop computes the complemented CRC-32 fold of the bytes, starting from all ones |
| Crc32.RecordCrcIgnoresCrcField | src/shared.c:42-45 | the checksum of a record depends on its 20 payload bytes only, never on the `crc` field |
| Crc32.CheckValue | src/shared.c:40-52 | the checksum is standard CRC-32: the bytes of "123456789" give 0xCBF43926 |
| Crc32.StepInjective | src/shared.c:48 | one bit step is injective on the register |
| Crc32.ShiftInjective | src/shared.c:47-49 | any number of bit steps, the eight per byte included, is injective on the register |
| Crc32.UpdateByteInjective | src/shared.c:46-49 | from the same register, two different bytes leave different registers |
| Crc32.UpdateAppend | src/shared.c:45-50 | folding a concatenation equals folding the second part from the register the first part left |
| Crc32.UpdateInjective | src/shared.c:45-50 | folding equal-length byte strings from one register is injective |
| Crc32.SingleByteChangeDetected | src/shared.c:40-52 | two payloads that differ in exactly one byte have different checksums |
| Injector.Positions | src/shared.c:32-35 | one to three positions are drawn, each inside the 20-byte payload; the `j`-th is the `2 + j`-th draw modulo 20 |
| Injector.DistinctFlips | src/shared.c:32-37 | stated on the raw draws: when a fired call's positions are pairwise distinct, the bytes that change are exactly those at draw `2 + j` modulo 20 for `j` below the count `1 + draw 1 mod 3` |
| Injector.FlipAllParity | src/shared.c:34-37 | after the flip loop a byte is inverted exactly when its position was drawn an odd number of times |
| Injector.IntroduceError | src/shared.c:27-38 | `crc` is never touched; a failed trial consumes one draw and leaves the record as is; a successful one consumes 2 + count draws and inverts exactly the odd-drawn bytes |
| Injector.ProbabilityBounds | src/shared.c:28 | probability 0 or less never corrupts; 100 or more always enters the flip loop with at least one flip |
| Injector.PairedFlipsCancel | src/shared.c:34-37 | when every position is drawn an even number of times the record comes out unchanged although the trial fired |
| Injector.SingleFlip | src/shared.c:32-37 | a single flip changes exactly the drawn byte |
| Injector.FlipsConfinedTo | src/shared.c:34-37 | when all draws hit one position, no other byte changes |
| Server.Cleared | src/server.c:6-8 | before recomputing, `crc` and `error` are zeroed and every field is kept |
| Server.Classify | src/server.c:16-25 | an unknown code or a division by zero is invalid and leaves the record as is; `INT_MIN / -1` is the only crash; a computable operation stores its C result and writes nothing else |
| Server.Arithmetic | src/server.c:17-22 | the stored sum, difference and product are congruent to the exact value modulo 2^32; the stored quotient satisfies the C division identity with a remainder smaller than the divisor |
| Server.ArithmeticMeaning | src/server.c:17-22 | the stored result is the exact sum, difference or product when it fits and congruent to it modulo 2^32 otherwise; the stored quotient satisfies the C division identity |
| Server.VerifyOperation | src/server.c:5-28 | `crc` ends 0; operation, operands and padding are never written; a mismatch reports corruption with `error` set and `result` as received; past the check `error` stays false and the switch decides |
| Server.VerifyOperationOutcome | src/server.c:5-28 | corrupted exactly on a checksum mismatch; invalid exactly for a matching record with an unknown code or a zero divisor; a crash exactly for a matching `INT_MIN / -1`; computed exactly otherwise, with the C result |
| Server.HandleRecord | src/server.c:72-82 | the reply's `error` is true for return values -1 and 1 and false for 0 (the UDP loop at src/server.c:128-138 is identical); the reply keeps crc 0, the request's other fields and the verdict's result |
| Server.ErrorByteIgnored | src/server.c:8 | the received `error` byte has no influence on the verdict or the reply |
| Server.CrcOnlyCompared | src/server.c:6-11 | the received `crc` influences only whether the check passes |
| Server.ReverifyReply | src/server.c:7 | re-verifying a reply reports corruption unless the reply's own checksum is 0, because the reply carries crc 0: verification is not idempotent |
| Server.SingleByteCorruptionDetected | src/server.c:6-14 | every change confined to one payload byte other than `error`, padding included, fails the check |
| Client.BuildRequest | src/client.c:32-45 | an unparsable operator sends nothing; otherwise the request carries the parsed code, the operands, result 0, `error` false, the buffer's stale padding, and the checksum of that payload |
| Client.StaleCrcIrrelevant | src/client.c:45 | the stale `crc` left in the client's buffer has no influence on the request |
| Client.RequestPassesCheck | src/client.c:43-45 | an unmodified request passes the server's check, because both sides clear `error` before checksumming |
| Relay.RelayStep | src/middle_man.c:40-63 | one pass of the TCP loop, and of the UDP loop at src/middle_man.c:99-114, with a single client active: the record is corrupted once on the way in and never on the way back; its `crc` is preserved; the server's reply reaches the client unchanged; after a server crash the TCP relay echoes the forwarded record (src/middle_man.c:60 is unchecked) and the UDP client receives nothing |
| Protocol.CleanChannelRoundTrip | src/middle_man.c:44-63 | over a relay that never corrupts, a request is never reported corrupted: invalid exactly for division by zero, a crash exactly for `INT_MIN / -1`, and otherwise the C result with `error` false |
| Protocol.AddOneTwo | src/client.c:32-45 | `{+, 1, 2}` over a clean relay comes back as `{+, 1, 2, 3}` with `error` false |
| Protocol.DivideFiveByZero | src/server.c:21 | `{/, 5, 0}` over a clean relay comes back with `error` true |
| Protocol.SingleFlipDetected | src/middle_man.c:44 | a single injected flip outside the `error` byte is always reported as corruption, even when it lands in padding and changes no field |
| Protocol.ErrorByteFlipsHarmless | src/server.c:8 | flips confined to the `error` byte are invisible: the server answers as for the clean record |

## Left out

- Sockets, `bind`/`listen`/`accept`, `fork` and `SIGCHLD` reaping, `main`'s argument parsing: transport I/O is not modelled. The server a relay talks to is a parameter of `Relay.RelayStep`.
- Short reads: a TCP `recv` returning fewer than 24 bytes is not modelled. Records always arrive whole.
- The TCP relay's `connect` failure path (src/middle_man.c:53-57), which drops the record, is I/O and is not modelled.
- After a crash the UDP server process is gone for all later clients. The model covers one exchange only.
- `printf`/`scanf` and the text of `print_operation`: only the symbol table is modelled. A `scanf` that fails to parse, or an operator longer than `MAX_OP_SIZE`, is outside the model.
- `rand()`/`srand(time)`: replaced by the explicit `draws` sequence. Its statistical distribution is not modelled.
- Injector.IntroduceError: requires at least five draws, the most one call can consume, because `rand()` never runs out.
- Relay.RelayStep: requires at least five draws, for the same reason.
- Relay.RelayStep: assumes the next datagram the UDP relay reads after forwarding is the server's answer. The `recvfrom` at src/middle_man.c:111 uses the socket clients send to and checks neither sender nor length. With several clients, or after a UDP server crash, a client can receive another client's raw request, and the server's real reply is then taken at src/middle_man.c:100 as a new request. Interleaving between clients is not modelled.
- The 24-byte layout (field offsets, 4-byte enum, little-endian, three padding bytes) is the x86-64 System V ABI. It is assumed, not derived from the C declarations.
- `INT_MIN / -1` is undefined behaviour in C. The model fixes the x86-64 outcome, a trap that kills the server without a reply. Signed overflow in `+ - *` is also undefined; the model fixes two's-complement wrap-around, which is what the generated code does.
- A stored `error` byte other than 0 or 1 is kept as a raw byte. `verify_operation` never reads it: it overwrites it at src/server.c:8 before checksumming. Only the console prints read the received byte (src/server.c:70 and :126, src/middle_man.c:42 and :106, src/client.c:51 and :99), and printing is not modelled.
- Burst-error and multi-byte detection guarantees of CRC-32 are not proved. Only single-byte changes are covered, by Crc32.SingleByteChangeDetected.

=== FILE: bytes.dfy ===
/** Octets and their values as natural numbers. Only the byte-to-number
    direction uses a conversion; the other direction is built with 8-bit
    arithmetic, which keeps the two provably inverse. */
module Bytes {

  function ByteValue(b: bv8): (v: nat)
    ensures v < 0x100
  {
    b as int
  }

  /** The byte whose value is `x`, counted up from 0 in 8-bit arithmetic. */
  function ToByte(x: nat): bv8
    requires x < 0x100
    decreases x
  {
    if x == 0 then 0 else ToByte(x - 1) + 1
  }

  /** `ByteValue` and `ToByte` are mutually inverse. */
  lemma ByteRoundTrip(b: bv8, x: nat)
    requires x < 0x100
    ensures ToByte(ByteValue(b)) == b
    ensures ByteValue(ToByte(x)) == x
  {
    ToByteValue(x);
    ToByteValue(ByteValue(b));
    ValueInjective(ToByte(ByteValue(b)), b);
  }

  lemma {:induction false} ToByteValue(x: nat)
    requires x < 0x100
    ensures ByteValue(ToByte(x)) == x
    decreases x
  {
    if x > 0 {
      ToByteValue(x - 1);
      SuccessorValue(ToByte(x - 1));
    }
  }

  lemma SuccessorValue(b: bv8)
    requires ByteValue(b) < 0xFF
    ensures ByteValue(b + 1) == ByteValue(b) + 1
  {
  }

  lemma ValueInjective(b: bv8, c: bv8)
    requires ByteValue(b) == ByteValue(c)
    ensures b == c
  {
  }
}

=== FILE: cint.dfy ===
/** C `int` semantics on the x86-64 ABI: 32-bit two's-complement values,
    their unsigned bit patterns, wrapping arithmetic and division that
    truncates toward zero (section 6.5.5 paragraph 6 of ISO C11). */
module CInt {

  const MinInt32: int := -0x8000_0000
  const MaxInt32: int := 0x7FFF_FFFF
  const TwoTo32: int := 0x1_0000_0000

  type Int32 = x: int | MinInt32 <= x <= MaxInt32

  /** The value of a 32-bit pattern read as an unsigned number. */
  type Word = u: nat | u < TwoTo32

  /** Reads a 32-bit pattern as a two's-complement `int`. */
  function ToSigned(u: Word): Int32
  {
    if u <= MaxInt32 then u else u - TwoTo32
  }

  /** The two's-complement bit pattern of an `int`. */
  function FromSigned(x: Int32): Word
  {
    if x < 0 then x + TwoTo32 else x
  }

  /** `ToSigned` and `FromSigned` are mutually inverse: reading back a
      stored `int` gives the same `int`, and every pattern is the image of
      exactly one `int`. */
  lemma SignedRoundTrip(x: Int32, u: Word)
    ensures ToSigned(FromSigned(x)) == x
    ensures FromSigned(ToSigned(u)) == u
    ensures FromSigned(x) % TwoTo32 == x % TwoTo32
  {
  }

  /** Two's-complement wrap-around of a mathematical integer into `int`:
      the policy chosen for the signed overflow of `+`, `-` and `*`
      (undefined behaviour in section 6.5 paragraph 5 of ISO C11; what the
      x86-64 `add`, `sub` and `imul` instructions do). */
  function Wrap(x: int): (r: Int32)
    ensures (r - x) % TwoTo32 == 0
    ensures MinInt32 <= x <= MaxInt32 ==> r == x
  {
    (x - MinInt32) % TwoTo32 + MinInt32
  }

  function Abs(x: int): nat
  {
    if x < 0 then -x else x
  }

  /** C's `/` on `int`: the algebraic quotient with any fractional part
      discarded. */
  function TruncDiv(a: int, b: int): int
    requires b != 0
  {
    var m := Abs(a) / Abs(b);
    if (a < 0) != (b < 0) then -m else m
  }

  /** C's `%` on `int`, whose result has the sign of `a`. */
  function TruncRem(a: int, b: int): int
    requires b != 0
  {
    var r := Abs(a) % Abs(b);
    if a < 0 then -r else r
  }

  /** The defining properties of C division: `(a/b)*b + a%b == a`, the
      remainder is smaller than the divisor in magnitude and is zero or has
      the sign of the dividend, so the quotient is truncated toward zero. */
  lemma TruncDivSpec(a: int, b: int)
    requires b != 0
    ensures TruncDiv(a, b) * b + TruncRem(a, b) == a
    ensures Abs(TruncRem(a, b)) < Abs(b)
    ensures TruncRem(a, b) == 0 || (TruncRem(a, b) < 0 <==> a < 0)
  {
    var A: int, B: int := Abs(a), Abs(b);
    var m: int, r: int := A / B, A % B;
    NatDivMod(A, B);
    SignedProduct(m, B, a < 0, b < 0);
    assert TruncDiv(a, b) == if (a < 0) != (b < 0) then -m else m;
    assert TruncRem(a, b) == if a < 0 then -r else r;
    assert b == if b < 0 then -B else B;
    assert a == if a < 0 then -A else A;
  }

  /** Euclidean division of naturals. */
  lemma NatDivMod(A: nat, B: nat)
    requires B > 0
    ensures A == (A / B) * B + A % B && 0 <= A % B < B
    ensures (A / B) * B <= A
  {
  }

  /** Putting signs back on a product of magnitudes. */
  lemma SignedProduct(m: int, B: int, negA: bool, negB: bool)
    ensures var q := if negA != negB then -m else m;
      var b := if negB then -B else B;
      q * b == if negA then -(m * B) else m * B
  {
    if negA != negB {
      NegateProduct(m, if negB then -B else B);
    }
    if negB {
      NegateProduct(m, B);
    }
  }

  lemma NegateProduct(x: int, y: int)
    ensures (-x) * y == -(x * y) && x * (-y) == -(x * y)
  {
  }

  /** A quotient by at least two is at most half the dividend. */
  lemma HalfBound(m: nat, B: nat, A: nat)
    requires B >= 2 && m * B <= A
    ensures 2 * m <= A
  {
    assert m * 2 <= m * B;
  }

  /** The only quotient of two `int` values that leaves `int` is
      `MinInt32 / -1` (undefined behaviour in section 6.5.5 of ISO C11). */
  lemma TruncDivInRange(a: Int32, b: Int32)
    requires b != 0
    ensures MinInt32 <= TruncDiv(a, b) <= MaxInt32 <==> !(a == MinInt32 && b == -1)
  {
    var A, B := Abs(a), Abs(b);
    var m := A / B;
    NatDivMod(A, B);
    if B == 1 {
      assert m == A;
    } else {
      HalfBound(m, B, A);
    }
  }
}

=== FILE: client.dfy ===
/** The request the client loop of src/client.c builds before each send:
    parse the operator, reject INVALID_OP without sending, store the
    operands, clear `result` and `error`, then compute `crc` last. */
module Client {
  import opened CInt
  import opened Wrappers
  import opened Wire
  import opened Operations
  import opened Crc32
  import opened Server

  /** The request built in the buffer `buffer`, which still holds whatever
      the previous exchange (or the uninitialised stack) left in it; the
      loop only writes fields, so the padding bytes are carried over.
      `None` when the operator does not parse: the loop prints "Invalid
      operation" and sends nothing. */
  function BuildRequest(buffer: Record, symbol: string, a: Int32, b: Int32): (req: Option<Record>)
    ensures req.None? <==> Parse(symbol) == InvalidOp
    ensures req.Some? ==>
      && OperationCode(req.value) == Ordinal(Parse(symbol))
      && IsArithmetic(OperationCode(req.value))
      && Operand1(req.value) == a
      && Operand2(req.value) == b
      && Result(req.value) == 0
      && ErrorByte(req.value) == BoolByte(false)
      && Padding(req.value) == Padding(buffer)
      && req.value.crc == Checksum(req.value.payload)
  {
    var op := Parse(symbol);
    if op == InvalidOp then
      None
    else
      OrdinalRoundTrip(op, op);
      var p := Layout(Ordinal(op), a, b, 0, BoolByte(false), Padding(buffer));
      Some(Record(p, Checksum(p)))
  }

  /** The stale `crc` left in the buffer has no influence on the request. */
  lemma StaleCrcIrrelevant(buffer: Record, c: bv32, symbol: string, a: Int32, b: Int32)
    ensures BuildRequest(buffer.(crc := c), symbol, a, b) == BuildRequest(buffer, symbol, a, b)
  {
  }

  /** A request that reaches the server unmodified passes the checksum
      test: the client cleared `error` before computing `crc`, just as the
      server clears it before recomputing. */
  lemma RequestPassesCheck(buffer: Record, symbol: string, a: Int32, b: Int32)
    requires BuildRequest(buffer, symbol, a, b).Some?
    ensures CrcMatches(BuildRequest(buffer, symbol, a, b).value)
  {
    var req := BuildRequest(buffer, symbol, a, b).value;
    assert req.payload[ErrorOffset := 0] == req.payload;
  }
}

=== FILE: crc32.dfy ===
/** `compute_crc` (src/shared.c): the reflected CRC-32 of ISO-HDLC / IEEE
    802.3 — polynomial 0xEDB88320 shifted out least significant bit first,
    register preset to all ones, result complemented — defined over any
    byte string and then applied to a record's payload. */
module Crc32 {
  import opened Wire

  const Polynomial: bv32 := 0xEDB8_8320
  const InitialRegister: bv32 := 0xFFFF_FFFF
  const BitsPerByte: nat := 8

  /** One bit of the shift register, written as the C source writes it: the
      mask `-(crc & 1)` is all ones exactly when the low bit is set. */
  function Step(c: bv32): bv32
  {
    (c >> 1) ^ (Polynomial & (0 - (c & 1)))
  }

  /** The branch-free step is the textbook conditional XOR. */
  lemma StepIsConditionalXor(c: bv32)
    ensures Step(c) == if c & 1 == 1 then (c >> 1) ^ Polynomial else c >> 1
  {
    if c & 1 == 1 {
      assert 0 - (c & 1) == 0xFFFF_FFFF;
    } else {
      assert c & 1 == 0;
    }
  }

  /** `n` steps of the register. */
  function Shift(c: bv32, n: nat): bv32
    decreases n
  {
    if n == 0 then c else Shift(Step(c), n - 1)
  }

  /** One pass of the outer loop: XOR the byte into the low bits of the
      register, then eight steps. */
  function UpdateByte(c: bv32, b: bv8): bv32
  {
    Shift(c ^ (b as bv32), 8)
  }

  /** The register after feeding `data` to a register holding `c`. */
  function Update(c: bv32, data: seq<bv8>): bv32
    decreases |data|
  {
    if |data| == 0 then c else Update(UpdateByte(c, data[0]), data[1..])
  }

  /** The CRC-32 of a byte string. */
  function Checksum(data: seq<bv8>): bv32
  {
    !Update(InitialRegister, data)
  }

  /** `compute_crc` as the C code computes it, a byte loop around a bit
      loop, over an arbitrary byte string. */
  method ComputeCrc(data: seq<bv8>) returns (crc: bv32)
    ensures crc == Checksum(data)
  {
    crc := InitialRegister;
    var i := 0;
    while i < |data|
      invariant 0 <= i <= |data|
      invariant Update(crc, data[i..]) == Update(InitialRegister, data)
    {
      ghost var next := UpdateByte(crc, data[i]);
      crc := crc ^ (data[i] as bv32);
      var j := 0;
      while j < BitsPerByte
        invariant 0 <= j <= BitsPerByte
        invariant Shift(crc, BitsPerByte - j) == next
      {
        crc := (crc >> 1) ^ (Polynomial & (0 - (crc & 1)));
        j := j + 1;
      }
      assert data[i..][1..] == data[i + 1..];
      i := i + 1;
    }
    assert data[i..] == [];
    crc := !crc;
  }

  /** `compute_crc` on a record image: the checksum of the bytes before the
      `crc` field. */
  function RecordCrc(image: seq<bv8>): bv32
    requires |image| == RecordSize
  {
    Checksum(image[..PayloadSize])
  }

  /** The checksum of an image does not depend on the bytes of its `crc`
      field: it is the checksum of the record's payload alone. */
  lemma RecordCrcIgnoresCrcField(r: Record, image: seq<bv8>, image': seq<bv8>)
    requires |image| == |image'| == RecordSize
    requires forall i | 0 <= i < PayloadSize :: image[i] == image'[i]
    ensures RecordCrc(image) == RecordCrc(image')
    ensures RecordCrc(Encode(r)) == Checksum(r.payload)
  {
    assert image[..PayloadSize] == image'[..PayloadSize];
  }

  /** The standard CRC-32 check value: the ASCII string "123456789" has
      checksum 0xCBF43926. */
  lemma CheckValue()
    ensures Checksum([0x31, 0x32, 0x33, 0x34, 0x35, 0x36, 0x37, 0x38, 0x39]) == 0xCBF4_3926
  {
    var r1 := UpdateByte(InitialRegister, 0x31);
    assert r1 == 0x7C23_1048;
    var r2 := UpdateByte(r1, 0x32);
    assert r2 == 0xB0AC_BB32;
    var r3 := UpdateByte(r2, 0x33);
    assert r3 == 0x77B7_9C2D;
    var r4 := UpdateByte(r3, 0x34);
    assert r4 == 0x641C_1F5C;
    var r5 := UpdateByte(r4, 0x35);
    assert r5 == 0x340A_C5E3;
    var r6 := UpdateByte(r5, 0x36);
    assert r6 == 0xF68D_2C9E;
    var r7 := UpdateByte(r6, 0x37);
    assert r7 == 0xAFFC_9660;
    var r8 := UpdateByte(r7, 0x38);
    assert r8 == 0x651F_2550;
    var r9 := UpdateByte(r8, 0x39);
    assert r9 == 0x340B_C6D9;
    UpdateSteps(InitialRegister, [0x31, 0x32, 0x33, 0x34, 0x35, 0x36, 0x37, 0x38, 0x39]);
  }

  // ---------------------------------------------------------------------
  // Error detection: a change confined to one byte always changes the CRC

  /** No two registers step to the same register: a nonzero difference
      either keeps a zero low bit and shifts down, or carries the
      polynomial's top bit, which a right shift never produces. */
  lemma StepInjective(a: bv32, b: bv32)
    ensures Step(a) == Step(b) ==> a == b
  {
  }

  lemma {:induction false} ShiftInjective(a: bv32, b: bv32, n: nat)
    ensures Shift(a, n) == Shift(b, n) ==> a == b
    decreases n
  {
    if n > 0 {
      ShiftInjective(Step(a), Step(b), n - 1);
      StepInjective(a, b);
    }
  }

  /** Feeding one byte is injective in the register and in the byte. */
  lemma UpdateByteInjective(c: bv32, c': bv32, b: bv8, b': bv8)
    requires UpdateByte(c, b) == UpdateByte(c', b')
    ensures b == b' ==> c == c'
    ensures c == c' ==> b == b'
  {
    ByteShiftInjective(c ^ (b as bv32), c' ^ (b' as bv32));
    XorCancel(c, c', b, b');
  }

  lemma ByteShiftInjective(x: bv32, x': bv32)
    requires Shift(x, 8) == Shift(x', 8)
    ensures x == x'
  {
    ShiftInjective(x, x', 8);
  }

  lemma XorCancel(c: bv32, c': bv32, b: bv8, b': bv8)
    requires c ^ (b as bv32) == c' ^ (b' as bv32)
    ensures b == b' ==> c == c'
    ensures c == c' ==> b == b'
  {
  }

  /** Feeding `a` then `b` is feeding `a + b`. */
  lemma {:induction false} UpdateAppend(c: bv32, a: seq<bv8>, b: seq<bv8>)
    ensures Update(c, a + b) == Update(Update(c, a), b)
    decreases |a|
  {
    if |a| == 0 {
      assert a + b == b;
    } else {
      assert (a + b)[1..] == a[1..] + b;
      UpdateAppend(UpdateByte(c, a[0]), a[1..], b);
    }
  }

  /** For a fixed byte string, different starting registers end different. */
  lemma {:induction false} UpdateInjective(c: bv32, c': bv32, data: seq<bv8>)
    ensures Update(c, data) == Update(c', data) ==> c == c'
    decreases |data|
  {
    if |data| > 0 {
      UpdateInjective(UpdateByte(c, data[0]), UpdateByte(c', data[0]), data[1..]);
      if UpdateByte(c, data[0]) == UpdateByte(c', data[0]) {
        UpdateByteInjective(c, c', data[0], data[0]);
      }
    }
  }

  /** Two byte strings of equal length that differ in exactly one position
      have different checksums: every corruption confined to a single byte
      is detected. */
  lemma SingleByteChangeDetected(d: seq<bv8>, d': seq<bv8>, i: nat)
    requires |d| == |d'| && i < |d|
    requires d[i] != d'[i]
    requires forall j | 0 <= j < |d| && j != i :: d[j] == d'[j]
    ensures Checksum(d) != Checksum(d')
  {
    assert d == d[..i] + [d[i]] + d[i + 1..];
    assert d' == d[..i] + [d'[i]] + d[i + 1..];
    var r := Update(InitialRegister, d[..i]);
    UpdateAppend(InitialRegister, d[..i] + [d[i]], d[i + 1..]);
    UpdateAppend(InitialRegister, d[..i] + [d'[i]], d[i + 1..]);
    UpdateAppend(InitialRegister, d[..i], [d[i]]);
    UpdateAppend(InitialRegister, d[..i], [d'[i]]);
    UpdateSteps(r, [d[i]]);
    UpdateSteps(r, [d'[i]]);
    if UpdateByte(r, d[i]) == UpdateByte(r, d'[i]) {
      UpdateByteInjective(r, r, d[i], d'[i]);
    }
    UpdateInjective(UpdateByte(r, d[i]), UpdateByte(r, d'[i]), d[i + 1..]);
  }

  /** One unfolding of `Update` on a nonempty string. */
  lemma UpdateSteps(c: bv32, data: seq<bv8>)
    requires |data| > 0
    ensures Update(c, data) == Update(UpdateByte(c, data[0]), data[1..])
  {
  }
}

=== FILE: injector.dfy ===
/** `introduce_error` (src/shared.c): with probability `probability` percent
    the relay flips every bit of one to three payload bytes, each at a
    position drawn independently. `rand()` is replaced by an explicit
    sequence of draws, consumed in the order the C code calls `rand()`:
    draw 0 is the trial, draw 1 the flip count, the next draws the byte
    positions. */
module Injector {
  import opened Wire

  const PercentScale: nat := 100
  const MaxFlips: nat := 3
  const FlipMask: bv8 := 0xFF

  /** The most draws one call consumes: the trial, the count, three positions. */
  const MaxDraws: nat := 2 + MaxFlips

  /** The trial: the first draw, taken modulo 100, must fall below the
      probability (a percentage) for any byte to be flipped. */
  predicate Fires(probability: int, draws: seq<nat>)
    requires |draws| >= 1
  {
    draws[0] % PercentScale < probability
  }

  /** How many bytes are flipped: one to three, from the second draw. */
  function FlipCount(draws: seq<nat>): (n: nat)
    requires |draws| >= 2
    ensures 1 <= n <= MaxFlips
  {
    1 + draws[1] % MaxFlips
  }

  /** The position the `j`-th loop iteration flips: its own draw, the
      `2 + j`-th, reduced modulo the payload size. */
  function DrawnPosition(draws: seq<nat>, j: nat): (pos: nat)
    requires 2 + j < |draws|
    ensures pos < PayloadSize
  {
    draws[2 + j] % PayloadSize
  }

  /** The byte positions, each a draw reduced modulo the payload size, in
      the order the loop uses them. */
  function Positions(draws: seq<nat>): (ps: seq<nat>)
    requires |draws| >= MaxDraws
    ensures |ps| == FlipCount(draws)
    ensures forall j | 0 <= j < |ps| :: ps[j] < PayloadSize
  {
    seq(FlipCount(draws), j requires 0 <= j < MaxFlips => DrawnPosition(draws, j))
  }

  /** Flip every bit of the byte at `pos`. */
  function FlipAt(p: Payload, pos: nat): Payload
    requires pos < PayloadSize
  {
    p[pos := p[pos] ^ FlipMask]
  }

  /** The flip loop: flip the bytes at `positions`, in order. */
  function FlipAll(p: Payload, positions: seq<nat>): Payload
    requires forall j | 0 <= j < |positions| :: positions[j] < PayloadSize
    decreases |positions|
  {
    if |positions| == 0 then p else FlipAll(FlipAt(p, positions[0]), positions[1..])
  }

  /** After the flip loop, a byte is inverted exactly when its position was
      drawn an odd number of times; in particular a byte never drawn is
      unchanged and a byte drawn twice is restored. */
  lemma {:induction false} FlipAllParity(p: Payload, positions: seq<nat>, i: nat)
    requires forall j | 0 <= j < |positions| :: positions[j] < PayloadSize
    requires i < PayloadSize
    ensures FlipAll(p, positions)[i] ==
      if multiset(positions)[i] % 2 == 1 then p[i] ^ FlipMask else p[i]
    decreases |positions|
  {
    if |positions| > 0 {
      var q := FlipAt(p, positions[0]);
      assert FlipAll(p, positions) == FlipAll(q, positions[1..]);
      FlipAllParity(q, positions[1..], i);
      HeadCount(positions, i);
      if positions[0] == i {
        DoubleFlip(p[i]);
        assert q[i] == p[i] ^ FlipMask;
      } else {
        assert q[i] == p[i];
      }
    }
  }

  /** How often `i` occurs in a nonempty sequence: once more than in its
      tail exactly when it is the head. */
  lemma HeadCount(ps: seq<nat>, i: nat)
    requires |ps| > 0
    ensures multiset(ps)[i] == multiset(ps[1..])[i] + if ps[0] == i then 1 else 0
  {
    assert ps == [ps[0]] + ps[1..];
    assert multiset(ps) == multiset{ps[0]} + multiset(ps[1..]);
  }

  lemma DoubleFlip(b: bv8)
    ensures b ^ FlipMask ^ FlipMask == b
    ensures b ^ FlipMask != b
  {
  }

  /** Whether the byte at `i` ends up inverted. */
  predicate Inverted(probability: int, draws: seq<nat>, i: nat)
    requires |draws| >= MaxDraws
  {
    Fires(probability, draws) && multiset(Positions(draws))[i] % 2 == 1
  }

  /** The corrupted record and the number of draws consumed. */
  datatype Injection = Injection(record: Record, used: nat)

  /** `introduce_error`. Draws must not run out: `rand()` never does. */
  function IntroduceError(r: Record, probability: int, draws: seq<nat>): (res: Injection)
    requires |draws| >= MaxDraws
    ensures res.record.crc == r.crc
    ensures !Fires(probability, draws) ==> res == Injection(r, 1)
    ensures Fires(probability, draws) ==> 1 <= FlipCount(draws) <= MaxFlips && res.used == 2 + FlipCount(draws)
    ensures forall i | 0 <= i < PayloadSize ::
      res.record.payload[i] == if Inverted(probability, draws, i) then r.payload[i] ^ FlipMask else r.payload[i]
  {
    if !Fires(probability, draws) then
      Injection(r, 1)
    else
      var p := FlipAll(r.payload, Positions(draws));
      assert forall i | 0 <= i < PayloadSize ::
        p[i] == if Inverted(probability, draws, i) then r.payload[i] ^ FlipMask else r.payload[i]
      by {
        forall i | 0 <= i < PayloadSize {
          FlipAllParity(r.payload, Positions(draws), i);
        }
      }
      Injection(r.(payload := p), 2 + FlipCount(draws))
  }

  /** A probability of 0 or less never corrupts; 100 or more always
      attempts at least one flip. */
  lemma ProbabilityBounds(r: Record, probability: int, draws: seq<nat>)
    requires |draws| >= MaxDraws
    ensures probability <= 0 ==> IntroduceError(r, probability, draws).record == r
    ensures probability >= PercentScale ==> Fires(probability, draws) && |Positions(draws)| >= 1
  {
  }

  /** Flips that pair up cancel: when every drawn position is drawn an even
      number of times, the record comes out unchanged although the trial
      fired. */
  lemma PairedFlipsCancel(r: Record, probability: int, draws: seq<nat>)
    requires |draws| >= MaxDraws
    requires forall i | 0 <= i < PayloadSize :: multiset(Positions(draws))[i] % 2 == 0
    ensures IntroduceError(r, probability, draws).record == r
  {
    var r' := IntroduceError(r, probability, draws).record;
    assert r'.payload == r.payload;
  }

  /** A call that fires with a flip count of one changes exactly one byte,
      the one at the drawn position, and inverts it. */
  lemma SingleFlip(r: Record, probability: int, draws: seq<nat>)
    requires |draws| >= MaxDraws
    requires Fires(probability, draws) && FlipCount(draws) == 1
    ensures var r', p := IntroduceError(r, probability, draws).record, draws[2] % PayloadSize;
      && r'.payload[p] != r.payload[p]
      && forall i | 0 <= i < PayloadSize && i != p :: r'.payload[i] == r.payload[i]
  {
    var p := draws[2] % PayloadSize;
    assert Positions(draws) == [p];
    DoubleFlip(r.payload[p]);
  }

  /** When every drawn position is `pos`, at most that byte changes. */
  lemma FlipsConfinedTo(r: Record, probability: int, draws: seq<nat>, pos: nat)
    requires |draws| >= MaxDraws && pos < PayloadSize
    requires forall j | 0 <= j < |Positions(draws)| :: Positions(draws)[j] == pos
    ensures var r' := IntroduceError(r, probability, draws).record;
      r' == r.(payload := r.payload[pos := r'.payload[pos]])
  {
    var r' := IntroduceError(r, probability, draws).record;
    forall i | 0 <= i < PayloadSize && i != pos
      ensures r'.payload[i] == r.payload[i]
    {
      assert i !in multiset(Positions(draws));
    }
    assert r'.payload == r.payload[pos := r'.payload[pos]];
  }

  /** Stated on the raw draws: when the fired call's positions are pairwise
      distinct, the bytes that change are exactly those at
      `draws[2 + j] % 20` for `j` below the count `1 + draws[1] % 3`. */
  lemma DistinctFlips(r: Record, probability: int, draws: seq<nat>)
    requires |draws| >= MaxDraws && Fires(probability, draws)
    requires forall j, k | 0 <= j < k < 1 + draws[1] % MaxFlips ::
      DrawnPosition(draws, j) != DrawnPosition(draws, k)
    ensures forall i | 0 <= i < PayloadSize ::
      (IntroduceError(r, probability, draws).record.payload[i] != r.payload[i] <==>
        exists j | 0 <= j < 1 + draws[1] % MaxFlips :: i == DrawnPosition(draws, j))
  {
    var ps := Positions(draws);
    forall i | 0 <= i < PayloadSize
      ensures IntroduceError(r, probability, draws).record.payload[i] != r.payload[i] <==>
        exists j | 0 <= j < 1 + draws[1] % MaxFlips :: i == DrawnPosition(draws, j)
    {
      DistinctCount(ps, i);
      DoubleFlip(r.payload[i]);
      if i in ps {
        var j :| 0 <= j < |ps| && ps[j] == i;
        assert i == DrawnPosition(draws, j);
      }
      if exists j | 0 <= j < 1 + draws[1] % MaxFlips :: i == DrawnPosition(draws, j) {
        var j :| 0 <= j < 1 + draws[1] % MaxFlips && i == DrawnPosition(draws, j);
        assert ps[j] == i;
      }
    }
  }

  /** In a sequence without repetitions every element occurs once. */
  lemma {:induction false} DistinctCount(ps: seq<nat>, i: nat)
    requires forall j, k | 0 <= j < k < |ps| :: ps[j] != ps[k]
    ensures multiset(ps)[i] == if i in ps then 1 else 0
    decreases |ps|
  {
    if |ps| > 0 {
      DistinctCount(ps[1..], i);
      HeadCount(ps, i);
      if ps[0] == i {
        assert forall k | 0 <= k < |ps[1..]| :: ps[1..][k] == ps[k + 1] != ps[0];
      }
    }
  }
}

=== FILE: operations.dfy ===
/** The `Operation` enum of src/shared.h, its wire ordinals, and the two
    string mappings of src/shared.c: `parse_operation` and the symbol that
    `print_operation` shows for a code. */
module Operations {
  import opened CInt

  datatype Operation = Add | Sub | Mul | Div | InvalidOp

  /** The enumerator's value, which is what the 4-byte `operation` field
      carries: ADD=0, SUB=1, MUL=2, DIV=3, INVALID_OP=4. */
  function Ordinal(op: Operation): Word
  {
    match op
    case Add => 0
    case Sub => 1
    case Mul => 2
    case Div => 3
    case InvalidOp => 4
  }

  /** The arithmetic operations are exactly the codes below 4. */
  predicate IsArithmetic(code: Word)
  {
    code < 4
  }

  /** Reads a raw code as an enumerator. Every code that is not one of the
      four arithmetic ordinals lands on `InvalidOp`, as the `default` branch
      of the C `switch` statements treats it. */
  function FromCode(code: Word): (op: Operation)
    ensures op != InvalidOp <==> IsArithmetic(code)
    ensures op != InvalidOp ==> Ordinal(op) == code
  {
    if code == 0 then Add
    else if code == 1 then Sub
    else if code == 2 then Mul
    else if code == 3 then Div
    else InvalidOp
  }

  /** Ordinals are distinct, and reading an ordinal back gives the
      enumerator it came from. */
  lemma OrdinalRoundTrip(op: Operation, op': Operation)
    ensures FromCode(Ordinal(op)) == op
    ensures Ordinal(op) == Ordinal(op') ==> op == op'
    ensures IsArithmetic(Ordinal(op)) <==> op != InvalidOp
  {
  }

  /** `parse_operation`: the exact strings "+", "-", "*", "/" name the four
      arithmetic operations; every other string is INVALID_OP. */
  function Parse(s: string): (op: Operation)
    ensures op != InvalidOp ==> |s| == 1 && s[0] in "+-*/"
    ensures (op == Add <==> s == "+") && (op == Sub <==> s == "-")
    ensures (op == Mul <==> s == "*") && (op == Div <==> s == "/")
  {
    if s == "+" then Add
    else if s == "-" then Sub
    else if s == "*" then Mul
    else if s == "/" then Div
    else InvalidOp
  }

  /** The symbol `print_operation` shows for a raw code: "+", "-", "*", "/"
      for ADD..DIV and "?" for anything else. */
  function Symbol(code: Word): (sym: string)
    ensures |sym| == 1
    ensures sym == "?" <==> !IsArithmetic(code)
    ensures code == Ordinal(Add) ==> sym == "+"
    ensures code == Ordinal(Sub) ==> sym == "-"
    ensures code == Ordinal(Mul) ==> sym == "*"
    ensures code == Ordinal(Div) ==> sym == "/"
  {
    match FromCode(code)
    case Add => "+"
    case Sub => "-"
    case Mul => "*"
    case Div => "/"
    case InvalidOp => "?"
  }

  /** `Parse` and `Symbol` are inverse on the arithmetic operations: the
      symbol of an arithmetic code parses back to it, a string parses to an
      arithmetic operation only if it is that operation's symbol, and every
      other code shows as "?", which does not parse. */
  lemma ParseSymbolRoundTrip(op: Operation, s: string, code: Word)
    ensures op != InvalidOp ==> Parse(Symbol(Ordinal(op))) == op
    ensures Parse(s) != InvalidOp ==> Symbol(Ordinal(Parse(s))) == s
    ensures !IsArithmetic(code) <==> Symbol(code) == "?"
    ensures Parse(Symbol(code)) == FromCode(code)
  {
    OrdinalRoundTrip(op, op);
    OrdinalRoundTrip(Parse(s), Parse(s));
    assert "?" != "+" && "?" != "-" && "?" != "*" && "?" != "/";
  }
}

=== FILE: protocol.dfy ===
/** Whole exchanges: a client request, through the relay, to the server
    and back. */
module Protocol {
  import opened CInt
  import opened Wrappers
  import opened Wire
  import opened Operations
  import opened Injector
  import opened Server
  import opened Client
  import opened Relay

  /** Over a relay that never corrupts (probability 0 or less), a request
      the client built is never reported corrupted: it is computed, or
      invalid exactly for division by zero, or crashes the server exactly
      for INT_MIN / -1; a computed reply carries the C result and a clear
      error flag, an invalid one a set error flag. */
  lemma CleanChannelRoundTrip(t: Transport, buffer: Record, symbol: string, a: Int32, b: Int32,
                              probability: int, draws: seq<nat>)
    requires BuildRequest(buffer, symbol, a, b).Some?
    requires probability <= 0 && |draws| >= MaxDraws
    ensures var req := BuildRequest(buffer, symbol, a, b).value;
      var round := RelayStep(t, req, probability, draws, HandleRecord);
      var x := HandleRecord(req);
      && round.forwarded == req
      && (x.Crashed? <==> Parse(symbol) == Div && DivisionTraps(a, b))
      && (x.Answered? ==> x.verdict != Corrupted && round.delivered == Some(x.reply))
      && (x.Answered? && x.verdict == Invalid <==> Parse(symbol) == Div && b == 0)
      && (x.Answered? && x.verdict == Computed ==>
            Result(x.reply) == Arithmetic(Parse(symbol), a, b) && ErrorByte(x.reply) == BoolByte(false))
      && (x.Answered? && x.verdict == Invalid ==> ErrorByte(x.reply) == BoolByte(true))
  {
    var req := BuildRequest(buffer, symbol, a, b).value;
    ProbabilityBounds(req, probability, draws);
    RequestPassesCheck(buffer, symbol, a, b);
    VerifyOperationOutcome(req);
    OrdinalRoundTrip(Parse(symbol), Parse(symbol));
    var round := RelayStep(t, req, probability, draws, HandleRecord);
    assert round.forwarded.payload == req.payload;
  }

  /** `{+, 1, 2}` over a clean relay comes back as `{+, 1, 2, 3}` with
      `error` false. */
  lemma AddOneTwo(t: Transport, buffer: Record, draws: seq<nat>)
    requires |draws| >= MaxDraws
    ensures var req := BuildRequest(buffer, "+", 1, 2).value;
      var round := RelayStep(t, req, 0, draws, HandleRecord);
      round.delivered.Some?
      && OperationCode(round.delivered.value) == Ordinal(Add)
      && Operand1(round.delivered.value) == 1 && Operand2(round.delivered.value) == 2
      && Result(round.delivered.value) == 3
      && ErrorByte(round.delivered.value) == BoolByte(false)
  {
    CleanChannelRoundTrip(t, buffer, "+", 1, 2, 0, draws);
    var req := BuildRequest(buffer, "+", 1, 2).value;
    VerifyOperationOutcome(req);
    var reply := HandleRecord(req).reply;
    WordFrame(req.payload, reply.payload, OperationOffset);
    WordFrame(req.payload, reply.payload, Operand1Offset);
    WordFrame(req.payload, reply.payload, Operand2Offset);
  }

  /** `{/, 5, 0}` over a clean relay comes back with `error` true. */
  lemma DivideFiveByZero(t: Transport, buffer: Record, draws: seq<nat>)
    requires |draws| >= MaxDraws
    ensures var req := BuildRequest(buffer, "/", 5, 0).value;
      var round := RelayStep(t, req, 0, draws, HandleRecord);
      HandleRecord(req).Answered? && HandleRecord(req).verdict == Invalid
      && round.delivered.Some? && ErrorByte(round.delivered.value) == BoolByte(true)
  {
    CleanChannelRoundTrip(t, buffer, "/", 5, 0, 0, draws);
  }

  /** One flip anywhere but the `error` byte is always detected: the server
      reports corruption, sets `error` and computes nothing. That includes a
      flip in the padding, which changes no field at all. */
  lemma SingleFlipDetected(t: Transport, req: Record, probability: int, draws: seq<nat>)
    requires |draws| >= MaxDraws && CrcMatches(req)
    requires Fires(probability, draws) && FlipCount(draws) == 1
    requires draws[2] % PayloadSize != ErrorOffset
    ensures var round := RelayStep(t, req, probability, draws, HandleRecord);
      var x := HandleRecord(round.forwarded);
      && x.Answered? && x.verdict == Corrupted
      && round.delivered == Some(x.reply)
      && ErrorByte(x.reply) == BoolByte(true)
      && Result(x.reply) == Result(round.forwarded)
    ensures draws[2] % PayloadSize >= PaddingOffset ==>
      var fwd := RelayStep(t, req, probability, draws, HandleRecord).forwarded;
      && OperationCode(fwd) == OperationCode(req)
      && Operand1(fwd) == Operand1(req) && Operand2(fwd) == Operand2(req)
      && Result(fwd) == Result(req)
  {
    var p := draws[2] % PayloadSize;
    var fwd := RelayStep(t, req, probability, draws, HandleRecord).forwarded;
    SingleFlip(req, probability, draws);
    SingleByteCorruptionDetected(req, fwd, p);
    VerifyOperationOutcome(fwd);
    if p >= PaddingOffset {
      WordFrame(req.payload, fwd.payload, OperationOffset);
      WordFrame(req.payload, fwd.payload, Operand1Offset);
      WordFrame(req.payload, fwd.payload, Operand2Offset);
      WordFrame(req.payload, fwd.payload, ResultOffset);
    }
  }

  /** Flips that all land on the `error` byte are invisible: the server
      answers exactly as it would have answered the uncorrupted record. */
  lemma ErrorByteFlipsHarmless(t: Transport, req: Record, probability: int, draws: seq<nat>)
    requires |draws| >= MaxDraws
    requires forall j | 0 <= j < |Positions(draws)| :: Positions(draws)[j] == ErrorOffset
    ensures HandleRecord(RelayStep(t, req, probability, draws, HandleRecord).forwarded) == HandleRecord(req)
  {
    var fwd := RelayStep(t, req, probability, draws, HandleRecord).forwarded;
    FlipsConfinedTo(req, probability, draws, ErrorOffset);
    ErrorByteIgnored(req, fwd.payload[ErrorOffset]);
  }
}

=== FILE: relay.dfy ===
/** The relay of src/middle_man.c, per received record: corrupt it once
    with `introduce_error`, forward it, and hand the client whatever comes
    back from the server. The server is a parameter: the relay neither
    checks nor recomputes anything. */
module Relay {
  import opened Wrappers
  import opened Wire
  import opened Injector
  import opened Server

  /** The two transport bindings. They differ only in what the client gets
      when the server dies without replying. */
  datatype Transport = Tcp | Udp

  /** One relayed exchange: the record sent to the server, what the client
      receives, and how many draws the injector consumed. */
  datatype Round = Round(forwarded: Record, delivered: Option<Record>, used: nat)

  /** The loop body after a record from the client has been received.
      When the server answers, the answer is passed on unchanged with no
      injection on the way back. When it dies (`Crashed`), the TCP relay's
      unchecked `recv` leaves its buffer holding the forwarded record and
      sends that back; the UDP relay blocks in `recvfrom` and the client
      receives nothing. */
  function RelayStep(t: Transport, received: Record, probability: int, draws: seq<nat>,
                     server: Record -> Exchange): (round: Round)
    requires |draws| >= MaxDraws
    ensures round.forwarded.crc == received.crc
    ensures round.used == IntroduceError(received, probability, draws).used
    ensures forall i | 0 <= i < PayloadSize ::
      round.forwarded.payload[i] == if Inverted(probability, draws, i) then received.payload[i] ^ FlipMask else received.payload[i]
    ensures server(round.forwarded).Answered? ==> round.delivered == Some(server(round.forwarded).reply)
    ensures server(round.forwarded).Crashed? ==>
      round.delivered == if t == Tcp then Some(round.forwarded) else None
  {
    var injected := IntroduceError(received, probability, draws);
    var forwarded := injected.record;
    var delivered := match server(forwarded)
      case Answered(_, reply) => Some(reply)
      case Crashed => if t == Tcp then Some(forwarded) else None;
    Round(forwarded, delivered, injected.used)
  }
}

=== FILE: server.dfy ===
/** The authoritative server of src/server.c: `verify_operation`, which
    checks the checksum, classifies the operation and computes the result,
    and the step of the TCP and UDP receive loops that turns its return
    value into the reply's `error` flag. */
module Server {
  import opened CInt
  import opened Wire
  import opened Operations
  import opened Crc32

  /** The return value of `verify_operation`. */
  datatype Verdict = Computed | Corrupted | Invalid
  {
    function Code(): int
    {
      match this
      case Computed => 0
      case Corrupted => 1
      case Invalid => -1
    }
  }

  /** What one received record leads to: a verdict and the record as the
      server leaves it, or no reply at all. `Crashed` is `INT_MIN / -1`,
      undefined behaviour in C; on x86-64 the `idiv` instruction raises a
      divide error, the process receives SIGFPE and dies without replying. */
  datatype Exchange = Answered(verdict: Verdict, reply: Record) | Crashed

  /** The checksum the server expects: over the received payload with the
      `error` byte forced to false. */
  function ExpectedCrc(r: Record): bv32
  {
    Checksum(r.payload[ErrorOffset := 0])
  }

  predicate CrcMatches(r: Record)
  {
    r.crc == ExpectedCrc(r)
  }

  /** The one division whose quotient does not fit in `int`. */
  predicate DivisionTraps(a: Int32, b: Int32)
  {
    a == MinInt32 && b == -1
  }

  /** Whether `verify_operation` computes a value for this operation:
      ADD..DIV, except division by zero and the trapping division. */
  predicate Computable(op: Operation, a: Int32, b: Int32)
  {
    op != InvalidOp && (op == Div ==> b != 0 && !DivisionTraps(a, b))
  }

  /** The value `verify_operation` stores in `result`: two's-complement
      wrap-around for `+ - *` and C division truncating toward zero. */
  function Arithmetic(op: Operation, a: Int32, b: Int32): (r: Int32)
    requires Computable(op, a, b)
    ensures op == Add ==> (r - (a + b)) % TwoTo32 == 0
    ensures op == Sub ==> (r - (a - b)) % TwoTo32 == 0
    ensures op == Mul ==> (r - a * b) % TwoTo32 == 0
    ensures op == Div ==> r * b + TruncRem(a, b) == a && Abs(TruncRem(a, b)) < Abs(b)
  {
    match op
    case Add => Wrap(a + b)
    case Sub => Wrap(a - b)
    case Mul => Wrap(a * b)
    case Div =>
      TruncDivInRange(a, b);
      TruncDivSpec(a, b);
      TruncDiv(a, b)
  }

  /** What the stored value means: the exact sum, difference or product
      whenever it fits in `int` and otherwise the value congruent to it
      modulo 2^32; for division, the C quotient, satisfying
      `(a/b)*b + a%b == a` with a remainder smaller than `b` that takes the
      sign of `a`. */
  lemma ArithmeticMeaning(op: Operation, a: Int32, b: Int32)
    requires Computable(op, a, b)
    ensures var exact := match op
                case Add => a + b
                case Sub => a - b
                case Mul => a * b
                case Div => 0;
      op != Div ==>
        && (Arithmetic(op, a, b) - exact) % TwoTo32 == 0
        && (MinInt32 <= exact <= MaxInt32 ==> Arithmetic(op, a, b) == exact)
    ensures op == Div ==>
      var q, rem := Arithmetic(op, a, b), TruncRem(a, b);
      q * b + rem == a && Abs(rem) < Abs(b) && (rem == 0 || (rem < 0 <==> a < 0))
  {
    if op == Div {
      TruncDivSpec(a, b);
    }
  }

  /** The first three lines of `verify_operation`: `crc` and `error` are
      cleared before the checksum is recomputed. */
  function Cleared(r: Record): (c: Record)
    ensures c.crc == 0 && ErrorByte(c) == 0
    ensures SameOutside(r.payload, c.payload, ErrorOffset, ErrorOffset + 1)
    ensures OperationCode(c) == OperationCode(r)
    ensures Operand1(c) == Operand1(r) && Operand2(c) == Operand2(r) && Result(c) == Result(r)
  {
    var c := Record(r.payload[ErrorOffset := 0], 0);
    WordFrame(r.payload, c.payload, OperationOffset);
    WordFrame(r.payload, c.payload, Operand1Offset);
    WordFrame(r.payload, c.payload, Operand2Offset);
    WordFrame(r.payload, c.payload, ResultOffset);
    c
  }

  /** The `switch` of `verify_operation`, on a record whose checksum
      matched: classify the raw code and compute into `result`. */
  function Classify(c: Record): (x: Exchange)
    ensures x.Answered? ==> x.verdict != Corrupted && x.reply.crc == c.crc
    ensures x.Answered? ==> SameOutside(c.payload, x.reply.payload, ResultOffset, ResultOffset + 4)
    ensures !IsArithmetic(OperationCode(c)) || (OperationCode(c) == Ordinal(Div) && Operand2(c) == 0) ==>
      x == Answered(Invalid, c)
    ensures x.Crashed? <==> OperationCode(c) == Ordinal(Div) && DivisionTraps(Operand1(c), Operand2(c))
    ensures x.Answered? && x.verdict == Computed <==> Computable(FromCode(OperationCode(c)), Operand1(c), Operand2(c))
    ensures x.Answered? && x.verdict == Computed ==>
      Result(x.reply) == Arithmetic(FromCode(OperationCode(c)), Operand1(c), Operand2(c))
  {
    var op, a, b := FromCode(OperationCode(c)), Operand1(c), Operand2(c);
    if op == InvalidOp || (op == Div && b == 0) then Answered(Invalid, c)
    else if op == Div && DivisionTraps(a, b) then Crashed
    else Answered(Computed, WithResult(c, Arithmetic(op, a, b)))
  }

  /** `verify_operation`: clear `crc` and `error`, recompute the checksum,
      report corruption on a mismatch and otherwise classify and compute. */
  function VerifyOperation(r: Record): (x: Exchange)
    // crc is overwritten with 0 and never restored
    ensures x.Answered? ==> x.reply.crc == 0
    // operation, operands and padding are never written
    ensures x.Answered? ==> SameOutside(r.payload, x.reply.payload, ResultOffset, ErrorOffset + 1)
    // a mismatch is corruption: error set, result untouched, no arithmetic
    ensures !CrcMatches(r) ==>
      x.Answered? && x.verdict == Corrupted && ErrorByte(x.reply) == 1 && Result(x.reply) == Result(r)
    // past the check, error stays false whatever the verdict
    ensures CrcMatches(r) ==> x == Classify(Cleared(r))
    ensures CrcMatches(r) && x.Answered? ==> x.verdict != Corrupted && ErrorByte(x.reply) == 0
  {
    var c := Cleared(r);
    if r.crc != Checksum(c.payload) then
      var x := WithError(c, true);
      WordFrame(c.payload, x.payload, ResultOffset);
      Answered(Corrupted, x)
    else
      Classify(c)
  }

  /** The server's classification of a record, stated on the received
      fields: which records are corrupted, invalid, computed or crash the
      server, and the value a computed reply carries. */
  lemma VerifyOperationOutcome(r: Record)
    ensures var x := VerifyOperation(r);
      var op, a, b := FromCode(OperationCode(r)), Operand1(r), Operand2(r);
      && (x.Answered? && x.verdict == Corrupted <==> !CrcMatches(r))
      && (x.Answered? && x.verdict == Invalid <==>
            CrcMatches(r) && (op == InvalidOp || (op == Div && b == 0)))
      && (x.Crashed? <==> CrcMatches(r) && op == Div && DivisionTraps(a, b))
      && (x.Answered? && x.verdict == Invalid ==> Result(x.reply) == Result(r))
      && (x.Answered? && x.verdict == Computed <==> CrcMatches(r) && Computable(op, a, b))
      && (x.Answered? && x.verdict == Computed ==> Result(x.reply) == Arithmetic(op, a, b))
  {
    OrdinalRoundTrip(Div, Div);
  }

  /** One iteration of the TCP and UDP server loops after reception:
      `verify_operation`, then `error` set to true for -1 and 1 and to false
      for 0, then the record is sent back. */
  function HandleRecord(r: Record): (x: Exchange)
    ensures x.Crashed? <==> VerifyOperation(r).Crashed?
    ensures x.Answered? ==> x.verdict == VerifyOperation(r).verdict
    ensures x.Answered? ==> ErrorByte(x.reply) == BoolByte(x.verdict != Computed)
    ensures x.Answered? ==> x.reply.crc == 0
    ensures x.Answered? ==> SameOutside(r.payload, x.reply.payload, ResultOffset, ErrorOffset + 1)
    ensures x.Answered? ==> Result(x.reply) == Result(VerifyOperation(r).reply)
  {
    match VerifyOperation(r)
    case Crashed => Crashed
    case Answered(v, reply) =>
      var flag := if v.Code() == -1 then true else if v.Code() == 1 then true else false;
      var sent := WithError(reply, flag);
      WordFrame(reply.payload, sent.payload, ResultOffset);
      Answered(v, sent)
  }

  // ---------------------------------------------------------------------
  // Properties relating several records

  /** The received `error` byte plays no part: two records that differ only
      there are handled identically. A flip confined to it is harmless. */
  lemma ErrorByteIgnored(r: Record, b: bv8)
    ensures VerifyOperation(r.(payload := r.payload[ErrorOffset := b])) == VerifyOperation(r)
    ensures HandleRecord(r.(payload := r.payload[ErrorOffset := b])) == HandleRecord(r)
  {
    var r' := r.(payload := r.payload[ErrorOffset := b]);
    assert r'.payload[ErrorOffset := 0] == r.payload[ErrorOffset := 0];
    assert Cleared(r') == Cleared(r);
    assert ExpectedCrc(r') == ExpectedCrc(r);
  }

  /** The received `crc` is compared, never used otherwise: two records
      that differ only in `crc` get the same verdict class unless exactly
      one of them matches. */
  lemma CrcOnlyCompared(r: Record, c: bv32)
    requires CrcMatches(r) == CrcMatches(r.(crc := c))
    ensures VerifyOperation(r.(crc := c)) == VerifyOperation(r)
  {
    assert Cleared(r.(crc := c)) == Cleared(r);
  }

  /** A reply carries crc 0, so sending it through the server again
      reports corruption unless the reply's own checksum happens to be 0:
      verification is not idempotent. */
  lemma ReverifyReply(r: Record)
    ensures HandleRecord(r).Answered? ==>
      var reply := HandleRecord(r).reply;
      HandleRecord(reply).Answered? && HandleRecord(reply).verdict == Corrupted <==> ExpectedCrc(reply) != 0
  {
  }

  /** A record that matched its checksum stops matching when any single
      byte other than `error` changes, the padding included: the server
      detects every corruption confined to one such byte. */
  lemma SingleByteCorruptionDetected(r: Record, r': Record, p: nat)
    requires CrcMatches(r) && r'.crc == r.crc
    requires p < PayloadSize && p != ErrorOffset && r'.payload[p] != r.payload[p]
    requires forall i | 0 <= i < PayloadSize && i != p :: r'.payload[i] == r.payload[i]
    ensures !CrcMatches(r')
  {
    var d, d' := r.payload[ErrorOffset := 0], r'.payload[ErrorOffset := 0];
    SingleByteChangeDetected(d, d', p);
  }
}

=== FILE: wire.dfy ===
/** The byte image of `BinaryOperation` (src/shared.h), under the x86-64
    System V layout the C code relies on when it treats the struct as raw
    bytes: 24 bytes, little-endian, with the one-byte `error` followed by
    three padding bytes so that `crc` is 4-byte aligned.

      offset  0.. 3  operation  (enum, 4 bytes)
      offset  4.. 7  operand1   (int)
      offset  8..11  operand2   (int)
      offset 12..15  result     (int)
      offset 16      error      (bool)
      offset 17..19  padding
      offset 20..23  crc        (uint32_t)

    The payload is everything before `crc`: sizeof(BinaryOperation) - 4
    bytes, padding included. A record is held as its payload bytes plus the
    crc register value. */
module Wire {
  import opened CInt
  import opened Wrappers
  import opened Bytes

  const OperationOffset: nat := 0
  const Operand1Offset: nat := 4
  const Operand2Offset: nat := 8
  const ResultOffset: nat := 12
  const ErrorOffset: nat := 16
  const PaddingOffset: nat := 17
  const CrcOffset: nat := 20
  const CrcSize: nat := 4
  const RecordSize: nat := 24
  const PayloadSize: nat := RecordSize - CrcSize

  /** The bytes the checksum covers. */
  type Payload = p: seq<bv8> | |p| == PayloadSize witness seq(20, _ => 0)

  datatype Record = Record(payload: Payload, crc: bv32)

  // ---------------------------------------------------------------------
  // Little-endian 32-bit words

  /** The unsigned value of the four bytes at `off`, least significant first. */
  function WordAt(s: seq<bv8>, off: nat): Word
    requires off + 4 <= |s|
  {
    ByteValue(s[off]) + 0x100 * (ByteValue(s[off + 1])
      + 0x100 * (ByteValue(s[off + 2]) + 0x100 * ByteValue(s[off + 3])))
  }

  /** The base-256 digits of a word, least significant first. */
  function Digits(u: Word): (d: seq<nat>)
    ensures |d| == 4 && forall i | 0 <= i < 4 :: d[i] < 0x100
  {
    var u1 := u / 0x100;
    var u2 := u1 / 0x100;
    [u % 0x100, u1 % 0x100, u2 % 0x100, u2 / 0x100]
  }

  /** The four bytes of a word, least significant first. */
  function WordBytes(u: Word): (s: seq<bv8>)
    ensures |s| == 4
  {
    var d := Digits(u);
    [ToByte(d[0]), ToByte(d[1]), ToByte(d[2]), ToByte(d[3])]
  }

  /** Base-256 digits of a number below 2^32 recombine to the number. */
  lemma DigitsRecombine(u: Word)
    ensures var d := Digits(u); u == d[0] + 0x100 * (d[1] + 0x100 * (d[2] + 0x100 * d[3]))
  {
  }

  lemma DivModByte(a: nat, k: nat)
    requires a < 0x100
    ensures (a + 0x100 * k) % 0x100 == a
    ensures (a + 0x100 * k) / 0x100 == k
  {
  }

  /** Writing a word and reading it back gives the word. */
  lemma WordBytesThenAt(u: Word)
    ensures WordAt(WordBytes(u), 0) == u
  {
    var d := Digits(u);
    ByteRoundTrip(0, d[0]);
    ByteRoundTrip(0, d[1]);
    ByteRoundTrip(0, d[2]);
    ByteRoundTrip(0, d[3]);
    DigitsRecombine(u);
  }

  /** Reading four bytes and writing them back gives the same bytes: with
      `WordBytesThenAt`, the little-endian encoding is a bijection between
      words and 4-byte sequences. */
  lemma WordAtThenBytes(s: seq<bv8>, off: nat)
    requires off + 4 <= |s|
    ensures WordBytes(WordAt(s, off)) == s[off..off + 4]
  {
    var t := s[off..off + 4];
    assert t == [s[off], s[off + 1], s[off + 2], s[off + 3]];
    assert WordAt(s, off) == WordAt(t, 0);
    FourBytesRoundTrip(s[off], s[off + 1], s[off + 2], s[off + 3]);
  }

  lemma FourBytesRoundTrip(b0: bv8, b1: bv8, b2: bv8, b3: bv8)
    ensures WordBytes(WordAt([b0, b1, b2, b3], 0)) == [b0, b1, b2, b3]
  {
    var v0, v1, v2, v3 := ByteValue(b0), ByteValue(b1), ByteValue(b2), ByteValue(b3);
    var u := WordAt([b0, b1, b2, b3], 0);
    assert u == v0 + 0x100 * (v1 + 0x100 * (v2 + 0x100 * v3));
    DigitsOfValue(v0, v1, v2, v3);
    BytesOfDigits(u, v0, v1, v2, v3);
    ByteRoundTrip(b0, 0);
    ByteRoundTrip(b1, 0);
    ByteRoundTrip(b2, 0);
    ByteRoundTrip(b3, 0);
  }

  lemma BytesOfDigits(u: Word, v0: nat, v1: nat, v2: nat, v3: nat)
    requires Digits(u) == [v0, v1, v2, v3]
    ensures WordBytes(u) == [ToByte(v0), ToByte(v1), ToByte(v2), ToByte(v3)]
  {
    var d := Digits(u);
    assert d[0] == v0 && d[1] == v1 && d[2] == v2 && d[3] == v3;
  }

  /** The base-256 digits of `v0 + 256 * (v1 + 256 * (v2 + 256 * v3))`. */
  lemma DigitsOfValue(v0: nat, v1: nat, v2: nat, v3: nat)
    requires v0 < 0x100 && v1 < 0x100 && v2 < 0x100 && v3 < 0x100
    ensures Digits(v0 + 0x100 * (v1 + 0x100 * (v2 + 0x100 * v3))) == [v0, v1, v2, v3]
  {
    var w2 := v2 + 0x100 * v3;
    var w1 := v1 + 0x100 * w2;
    DivModByte(v0, w1);
    DivModByte(v1, w2);
    DivModByte(v2, v3);
  }

  /** `s` with the word at `off` replaced by `u`. */
  function WithWord(s: seq<bv8>, off: nat, u: Word): (t: seq<bv8>)
    requires off + 4 <= |s|
    ensures |t| == |s|
    ensures WordAt(t, off) == u
    ensures forall i | 0 <= i < |s| && !(off <= i < off + 4) :: t[i] == s[i]
  {
    WordBytesThenAt(u);
    s[..off] + WordBytes(u) + s[off + 4..]
  }

  // ---------------------------------------------------------------------
  // Field accessors

  /** Bytes of `p` and `q` agree everywhere outside `[lo, hi)`. */
  predicate SameOutside(p: Payload, q: Payload, lo: nat, hi: nat)
  {
    forall i | 0 <= i < PayloadSize && !(lo <= i < hi) :: p[i] == q[i]
  }

  /** The raw 4-byte `operation` code. It is not restricted to the enum's
      ordinals: a flipped byte can make it any value. */
  function OperationCode(r: Record): Word
  {
    WordAt(r.payload, OperationOffset)
  }

  function Operand1(r: Record): Int32
  {
    ToSigned(WordAt(r.payload, Operand1Offset))
  }

  function Operand2(r: Record): Int32
  {
    ToSigned(WordAt(r.payload, Operand2Offset))
  }

  function Result(r: Record): Int32
  {
    ToSigned(WordAt(r.payload, ResultOffset))
  }

  /** The byte that holds `error`; C writes 1 for true and 0 for false. */
  function ErrorByte(r: Record): bv8
  {
    r.payload[ErrorOffset]
  }

  function BoolByte(b: bool): bv8
  {
    if b then 1 else 0
  }

  function Padding(r: Record): seq<bv8>
  {
    r.payload[PaddingOffset..CrcOffset]
  }

  // ---------------------------------------------------------------------
  // Field setters: each writes one field and no other byte

  function WithOperationCode(r: Record, code: Word): (r': Record)
    ensures OperationCode(r') == code
    ensures SameOutside(r.payload, r'.payload, OperationOffset, OperationOffset + 4)
    ensures r'.crc == r.crc
  {
    r.(payload := WithWord(r.payload, OperationOffset, code))
  }

  function WithOperand1(r: Record, x: Int32): (r': Record)
    ensures Operand1(r') == x
    ensures SameOutside(r.payload, r'.payload, Operand1Offset, Operand1Offset + 4)
    ensures r'.crc == r.crc
  {
    SignedRoundTrip(x, 0);
    r.(payload := WithWord(r.payload, Operand1Offset, FromSigned(x)))
  }

  function WithOperand2(r: Record, x: Int32): (r': Record)
    ensures Operand2(r') == x
    ensures SameOutside(r.payload, r'.payload, Operand2Offset, Operand2Offset + 4)
    ensures r'.crc == r.crc
  {
    SignedRoundTrip(x, 0);
    r.(payload := WithWord(r.payload, Operand2Offset, FromSigned(x)))
  }

  function WithResult(r: Record, x: Int32): (r': Record)
    ensures Result(r') == x
    ensures SameOutside(r.payload, r'.payload, ResultOffset, ResultOffset + 4)
    ensures r'.crc == r.crc
  {
    SignedRoundTrip(x, 0);
    r.(payload := WithWord(r.payload, ResultOffset, FromSigned(x)))
  }

  function WithError(r: Record, e: bool): (r': Record)
    ensures ErrorByte(r') == BoolByte(e)
    ensures SameOutside(r.payload, r'.payload, ErrorOffset, ErrorOffset + 1)
    ensures r'.crc == r.crc
  {
    r.(payload := r.payload[ErrorOffset := BoolByte(e)])
  }

  /** A payload written field by field, with the given padding bytes. */
  function Layout(code: Word, a: Int32, b: Int32, result: Int32, error: bv8, padding: seq<bv8>): (r: Payload)
    requires |padding| == CrcOffset - PaddingOffset
    ensures WordAt(r, OperationOffset) == code
    ensures ToSigned(WordAt(r, Operand1Offset)) == a
    ensures ToSigned(WordAt(r, Operand2Offset)) == b
    ensures ToSigned(WordAt(r, ResultOffset)) == result
    ensures r[ErrorOffset] == error
    ensures r[PaddingOffset..CrcOffset] == padding
  {
    var w0, w1, w2, w3 := WordBytes(code), WordBytes(FromSigned(a)), WordBytes(FromSigned(b)), WordBytes(FromSigned(result));
    var r: Payload := w0 + w1 + w2 + w3 + [error] + padding;
    ConcatSlices(w0, w1, w2, w3, error, padding);
    FieldOfLayout(r, OperationOffset, code, w0);
    FieldOfLayout(r, Operand1Offset, FromSigned(a), w1);
    FieldOfLayout(r, Operand2Offset, FromSigned(b), w2);
    FieldOfLayout(r, ResultOffset, FromSigned(result), w3);
    SignedRoundTrip(a, 0);
    SignedRoundTrip(b, 0);
    SignedRoundTrip(result, 0);
    r
  }

  lemma ConcatSlices(w0: seq<bv8>, w1: seq<bv8>, w2: seq<bv8>, w3: seq<bv8>, e: bv8, pad: seq<bv8>)
    requires |w0| == |w1| == |w2| == |w3| == 4 && |pad| == 3
    ensures var r := w0 + w1 + w2 + w3 + [e] + pad;
      r[0..4] == w0 && r[4..8] == w1 && r[8..12] == w2 && r[12..16] == w3 && r[16] == e && r[17..20] == pad
  {
  }

  lemma FieldOfLayout(s: seq<bv8>, off: nat, u: Word, w: seq<bv8>)
    requires off + 4 <= |s| && w == WordBytes(u)
    requires s[off..off + 4] == w
    ensures WordAt(s, off) == u
  {
    WordBytesThenAt(u);
    assert s[off] == w[0] && s[off + 1] == w[1] && s[off + 2] == w[2] && s[off + 3] == w[3];
  }

  /** Two payloads that agree on the four bytes of a field agree on its value. */
  lemma WordFrame(p: Payload, q: Payload, off: nat)
    requires off + 4 <= PayloadSize
    requires forall i | off <= i < off + 4 :: p[i] == q[i]
    ensures WordAt(p, off) == WordAt(q, off)
  {
    assert p[off + 1] == q[off + 1] && p[off + 2] == q[off + 2] && p[off + 3] == q[off + 3];
  }

  // ---------------------------------------------------------------------
  // The 24-byte image on the wire

  /** The `crc` field keeps its own codec, written in `bv32` operations:
      the CRC register is a bit vector throughout (shifts, XOR, complement),
      and this keeps it one. `WordBytes`/`WordAt` serve the integer fields,
      whose values are numbers. */
  function CrcBytes(c: bv32): (s: seq<bv8>)
    ensures |s| == CrcSize
  {
    [(c & 0xFF) as bv8, ((c >> 8) & 0xFF) as bv8, ((c >> 16) & 0xFF) as bv8, (c >> 24) as bv8]
  }

  function CrcAt(s: seq<bv8>, off: nat): bv32
    requires off + 4 <= |s|
  {
    (s[off] as bv32) | (s[off + 1] as bv32 << 8) | (s[off + 2] as bv32 << 16) | (s[off + 3] as bv32 << 24)
  }

  lemma CrcBytesRoundTrip(c: bv32, s: seq<bv8>, off: nat)
    requires off + 4 <= |s|
    ensures CrcAt(CrcBytes(c), 0) == c
    ensures CrcBytes(CrcAt(s, off)) == s[off..off + 4]
  {
  }

  /** The bytes sent for a record: the payload, then `crc` little-endian. */
  function Encode(r: Record): (s: seq<bv8>)
    ensures |s| == RecordSize
    ensures s[..CrcOffset] == r.payload
    ensures CrcAt(s, CrcOffset) == r.crc
  {
    CrcBytesRoundTrip(r.crc, CrcBytes(r.crc), 0);
    r.payload + CrcBytes(r.crc)
  }

  /** A datagram received into the record. `recvfrom` copies at most the
      record's size and drops the rest of a longer datagram, so anything of
      at least 24 bytes is accepted, truncated; a shorter one is rejected. */
  function Decode(s: seq<bv8>): (r: Option<Record>)
    ensures r.Some? <==> |s| >= RecordSize
    ensures r.Some? ==> r.value.payload == s[..CrcOffset] && r.value.crc == CrcAt(s, CrcOffset)
  {
    if |s| >= RecordSize then Some(Record(s[..CrcOffset], CrcAt(s, CrcOffset))) else None
  }

  /** Decoding undoes encoding, and the record decoded from an accepted
      datagram encodes to the datagram's first 24 bytes. */
  lemma CodecRoundTrip(r: Record, s: seq<bv8>)
    ensures Decode(Encode(r)) == Some(r)
    ensures Decode(s).Some? ==> Encode(Decode(s).value) == s[..RecordSize]
  {
    if |s| >= RecordSize {
      CrcBytesRoundTrip(0, s, CrcOffset);
      assert s[..RecordSize] == s[..CrcOffset] + s[CrcOffset..CrcOffset + 4];
    }
  }
}

=== FILE: wrappers.dfy ===
/** The optional value used where the C code signals "nothing" by an early
    `continue` or a short read. */
module Wrappers {

  datatype Option<+T> = None | Some(value: T)
}
